=== FILE: README.md ===
# Email monitor and email analyzer: a Dafny model of the core

Two small mail-watching programs share one parse stage. `email_monitor.py`
fetches unread messages, cuts each one's text into sentences and scores them
against a fixed keyword list. It sends a text message for every relevant email.
`email_analyzer.py` fetches the same kind of messages and asks a chat model how
important each one is. It places a phone call, carrying a one-sentence summary,
for every email rated High, and counts High, Medium and Low.

This project models the deterministic core of both programs:

- **`safe_decode`** (module `Normalizer`, with `PyBytes` for `str(payload)`).
  The payload is tried with the detected codec first, then with the six fixed
  fallbacks. The result is the first text that decodes, or the printed `bytes`
  literal when every codec raises `UnicodeDecodeError`. `PyBytes.Repr` writes
  that literal out the way Python prints `bytes`, and `PyBytes.ParseRepr` reads
  it back.
- **The parse stage of `get_emails`** (module `Records`). It produces the
  subject from the first `decode_header` fragment and the body from the first
  `text/plain` part, or from the single payload. A message whose parse raises
  is skipped.
- **`check_email_relevance`** (module `Relevance`, with `Text` for
  `split`/`strip`/`join`). It builds the sentence corpus, the similarity matrix
  and the per-keyword column maximum with its threshold. The selection gives
  the matched keywords in input order, and for each one the first sentence
  reaching its best score.
- **`analyze_email`** (module `Importance`). It builds the exact prompts and
  reads the reply: "High" is tested before "Medium". A second, summary request
  is made only for High.
- **One iteration of each `main` loop** (module `Cycle`). The analyzer's tally
  and its calls (with their TwiML), and the monitor's `matched_count` and its
  text messages.

The collaborators the programs call out to are parameters of the model:

- the codec tables and `chardet` are `Normalizer.Codecs`
- the chat completion service is `Importance.Chat`
- the sentence-embedding model followed by cosine similarity is a scoring
  function `(string, string) -> real`

Where the programs' behaviour differs from a natural reading of their intent,
the model follows the code:

- The candidate list in `safe_decode` keeps repeats. A detected `utf-8` is
  tried twice.
- Only `UnicodeDecodeError` is caught inside `safe_decode`. A detected codec
  name that Python does not know raises `LookupError`, which leaves
  `safe_decode`. `get_emails` then skips the message (`Normalizer.DecodeError`,
  `Records.ParseError.Codec`).
- Only the first fragment of an encoded subject is used. A `bytes` fragment is
  decoded by `safe_decode` and its declared charset is ignored.
- An email whose text has no sentence, or an empty keyword list, makes the
  similarity computation raise. It is not reported as "no match"
  (`Relevance.MatchError`).
- Neither `main` guards the classifier call. The first exception ends the
  cycle, and calls or messages already issued stay issued (`Cycle.Scan`). The
  monitor's `main` runs once. The analyzer's repeats the modelled cycle until
  an exception escapes, from `analyze_email` or `get_emails`. Only
  `KeyboardInterrupt` is caught, so that exception ends the program.

## Model

| member | source | states |
|---|---|---|
| Normalizer.SafeDecode | email_monitor.py:34-54 | `None` gives `""`. Otherwise a detected codec that decodes wins. The result is the text of the first candidate that decodes. When every candidate raises `UnicodeDecodeError` the result is the printed bytes literal. It fails exactly when the detected codec name is unknown, and the failure carries that name (the `LookupError`). |
| Normalizer.AfterRejection | email_monitor.py:47-51 | Once the first codec raises `UnicodeDecodeError`, the first accepting codec and the first unknown name are those of the rest of the list, one place later. |
| Normalizer.CandidatesKeepRepeats | email_monitor.py:39-44 | A detected codec adds one candidate in front of the six fallbacks without removing any, so a detected `utf-8` is tried first and second. |
| Normalizer.TryEach | email_monitor.py:46-51 | The codec loop returns the first accepting codec's text. The first unknown codec name raises before any later codec is tried. "Nothing decoded" happens exactly when every codec rejects. |
| Normalizer.RenderingNeedsEveryCodecToFail | email_analyzer.py:41-49 | Whenever ISO-8859-1 (always among the fallbacks) decodes the payload, the `str(payload)` branch is not reached. |
| Normalizer.Iso88591Fallback | email_analyzer.py:33-46 | With nothing detected, bytes that are not UTF-8 but are ISO-8859-1 decode as ISO-8859-1 without error. |
| PyBytes.Repr | email_monitor.py:53-54 | The printed bytes literal starts with `b`, has matching quotes at both ends and contains only printable ASCII. |
| PyBytes.EscapeAll | email_monitor.py:54 | Each byte is printed as 1 to 4 printable characters. |
| PyBytes.ReprRoundTrip | email_analyzer.py:48-49 | The printed literal determines the bytes: reading it back gives exactly the payload. |
| Records.DecodeSubject | email_monitor.py:74-76 | A subject exists only when the header has at least one fragment. A `str` first fragment is the subject as it is. A `bytes` first fragment is its `safe_decode`, with its charset ignored. |
| Records.SubjectUsesFirstFragmentOnly | email_analyzer.py:68-70 | Fragments after the first never change the subject. |
| Records.FirstTextPlain | email_monitor.py:80-84 | Finds the index of the first `text/plain` part in walk order, or none exactly when no part is `text/plain`. |
| Records.ExtractBody | email_monitor.py:78-87 | A multipart body is the decoding of the first `text/plain` part, or `""` when there is none. A single-part body is the decoding of its payload. |
| Records.FirstTextPlainStays | email_monitor.py:80-84 | Parts appended after a `text/plain` part do not move the first one. |
| Records.LaterPartsIgnored | email_analyzer.py:73-78 | Once a `text/plain` part exists, appending more parts does not change the body. |
| Records.HtmlOnlyBodyIsEmpty | email_monitor.py:78-84 | A multipart message with only an HTML part has body `""`. |
| Records.BuildRecord | email_monitor.py:74-94 | A record is built exactly when both subject and body decode. It carries the id, that subject, that body and the sender. |
| Records.Kept | email_analyzer.py:63-87 | An item contributes its result when its parse succeeds, and nothing when it raises. |
| Records.Collect | email_monitor.py:67-98 | The skip-on-exception loop keeps no more results than items. It keeps exactly one per item when every parse succeeds. |
| Records.CollectAppend | email_monitor.py:67-98 | Collecting a batch is collecting its halves and concatenating, so the fetch order is kept. |
| Records.FailureIsIsolated | email_monitor.py:96-98 | An item whose parse raises is skipped and the rest of the batch is unaffected. |
| Records.ParsedMessageKept | email_analyzer.py:83-87 | An item that parses contributes its result at its own place in the batch. |
| Records.GetEmails | email_analyzer.py:61-92 | The loop applied to `BuildRecord`: no more records than messages, and exactly one record per message when every message parses. |
| Records.GetEmailsOne | email_monitor.py:68-98 | A single fetched message gives exactly its `BuildRecord` record when it parses, and no record when the parse raises. |
| Records.GetEmailsSkips | email_monitor.py:96-98 | A message whose parse raises is skipped, and the records of the messages before and after it are still returned, unchanged and in order. |
| Records.GetEmailsKeeps | email_monitor.py:89-94 | A message that parses contributes its `BuildRecord` record, between the records of the messages before it and those after it. |
| Text.Strip | email_monitor.py:110 | The result is empty exactly for whitespace-only input. Otherwise it has no whitespace at either end, is a contiguous slice of the input, and only whitespace was cut from either side. |
| Text.Split | email_monitor.py:110 | There is at least one piece, no piece contains the separator, and joining the pieces with the separator gives the input back. |
| Text.SplitAppend | email_monitor.py:109-110 | Splitting `a + sep + b` splits `a` and `b` separately. |
| Text.JoinLength | email_monitor.py:183 | `", ".join` keeps every character of every piece and adds one separator between each two pieces. |
| Text.Contains | email_analyzer.py:108-118 | `sub in s`: the empty string and `s` itself are contained, and nothing longer than `s` is. |
| Text.SplitJoin | email_monitor.py:110 | Split inverts join for pieces without the separator. |
| Relevance.Clean | email_monitor.py:110 | Keeps at most as many pieces as it got, and each kept one is a sentence: non-empty, stripped and without `.`. |
| Relevance.EmailText | email_monitor.py:109 | The text is the subject, then `.` and a space, then the body. |
| Relevance.Sentences | email_monitor.py:110 | Every element of the corpus is a sentence: non-empty, stripped and without `.`. |
| Relevance.SentencesAppend | email_monitor.py:109-110 | The sentences before a `.` are followed by the sentences after it. |
| Relevance.SubjectSentencesFirst | email_monitor.py:109-110 | The subject's sentences come first in the corpus, followed by the body's. |
| Relevance.SentencesOfPiece | email_monitor.py:110 | A text without `.` is one sentence, its stripped form, unless it is blank. |
| Relevance.ColumnMax | email_monitor.py:123 | Bounds every score in the keyword's column from above. |
| Relevance.ColumnMaxAttained | email_monitor.py:123 | Some sentence reaches the keyword's column maximum. |
| Relevance.ArgMax | email_monitor.py:130 | The chosen sentence has the highest score for the keyword, and every earlier sentence scores strictly less: it is the first maximum. |
| Relevance.MatchedColumns | email_monitor.py:124 | Contains exactly the keyword indices whose maximum is strictly above the threshold, in increasing order. |
| Relevance.Select | email_monitor.py:126-135 | Matched keywords and evidence sentences pair up one to one. The email is relevant exactly when something matched. Entry i is the i-th matched keyword with its first best sentence. |
| Relevance.SimilarityMatrix | email_monitor.py:113-120 | Has one row per sentence and one column per keyword. Each entry is the score of that pair. |
| Relevance.CheckRelevance | email_monitor.py:105-135 | Raises exactly when the email yields no sentence or the keyword list is empty. Otherwise the verdict is the selection over the corpus of `"{subject}. {body}"` and the scores of every sentence against every keyword. |
| Relevance.RelevantIffSomePairAbove | email_monitor.py:117-126 | When the check answers, the email is relevant exactly when some sentence of it scores strictly above the threshold against some keyword. |
| Relevance.RelevantIffSomeKeywordAbove | email_monitor.py:124-135 | The email is relevant exactly when some keyword's best score exceeds the threshold. Otherwise the answer is `(False, [], [])`. |
| Relevance.MatchedIffAboveThreshold | email_monitor.py:124-127 | For distinct keywords, a keyword is reported exactly when its best score is strictly above the threshold. A score equal to the threshold does not match. |
| Relevance.MatchedKeywordsInOrder | email_monitor.py:124-127 | Reported keywords keep their input order, and each is above the threshold. |
| Relevance.EvidenceIsFirstBestSentence | email_monitor.py:127-131 | Every reported keyword, the last included, is above the threshold. Its evidence is the first sentence reaching its best score. |
| Relevance.BlankEmailRaises | email_monitor.py:109-114 | A blank subject and body leave no sentence, so the check raises. |
| Relevance.TwoSentenceEmail | email_monitor.py:109-110 | A one-sentence subject and a body that is one sentence ending in `.` give exactly those two sentences. |
| Relevance.SecondSentenceIsEvidence | email_monitor.py:109-133 | A body sentence scoring above the threshold and above the subject makes the keyword match with that sentence as evidence. |
| Relevance.InterviewRequestExample | email_monitor.py:105-133 | The interview-request email with keyword "interview request" at threshold 0.7 is relevant, with the body sentence as evidence. |
| Importance.RankOrder | email_analyzer.py:107-119 | The ranks order the categories Low < Medium < High. |
| Importance.Classify | email_analyzer.py:105-119 | High exactly when "High" occurs in the reply, even with "Medium" present. Medium exactly when "Medium" occurs without "High". Low exactly when neither occurs. |
| Importance.ImportanceRequest | email_analyzer.py:95-103 | Asks "gpt-4" with the analyst role. The prompt is the fixed lead, the subject verbatim, the fixed `Body:` separator, the body verbatim, and then the fixed question asking for 'High', 'Medium' or 'Low' as its tail. |
| Importance.SummaryRequest | email_analyzer.py:110-116 | Asks "gpt-4" with the summarizer role. The prompt is the fixed lead, the subject verbatim, the fixed `Body:` separator and then the body verbatim as its tail. |
| Importance.ClassifyMonotone | email_analyzer.py:108-119 | Adding text around a reply can raise its category but never lower it. |
| Importance.Analyze | email_analyzer.py:94-121 | The first request is the importance prompt and the category is read from its reply. High issues exactly one more request, the summary prompt, whose reply is the summary. Other categories issue one request and give summary `""`. It fails exactly when a request issued raises. |
| Cycle.Scan | email_analyzer.py:147-148 | Classifies emails in order. The outcomes so far are the successful classifications of a prefix. It stops exactly at the first exception, and the exception is that email's. |
| Cycle.ScanStops | email_monitor.py:165-170 | After the first exception no further email is classified. |
| Cycle.ScanFailsAt | email_analyzer.py:147-148 | An email that raises, after a clean prefix, ends the whole pass with its exception. |
| Cycle.CategoryCountsCover | email_analyzer.py:150-158 | The High, Medium and Low counts of any list of categories add up to its length. |
| Cycle.TallyStep | email_analyzer.py:150-158 | One more analysis bumps exactly its category's counter. |
| Cycle.Bump | email_analyzer.py:150-158 | The counter of the analysed category goes up by one and the other two stay as they are. |
| Cycle.CallTwiml | email_analyzer.py:133 | The call's TwiML is one `Say` element that speaks exactly the summary. |
| Cycle.CallsFor | email_analyzer.py:150-154 | There is one call per High analysis. |
| Cycle.CallsStep | email_analyzer.py:150-154 | A High analysis appends one call with its summary in TwiML. Others append nothing. |
| Cycle.AnalyzerLoop | email_analyzer.py:143-158 | The loop's result is the reference outcome of the in-order pass. The counters are the category counts of the analyses made, and a call is placed for exactly the High ones, in order, with their summaries. The first exception ends the cycle with that exception. |
| Cycle.AnalyzerCycle | email_analyzer.py:139-165 | The analyzer loop with `analyze_email` as classifier. The counters cover every email when no request raises, and the number of calls equals the High count. |
| Cycle.SmsText | email_monitor.py:183 | After the fixed lead `Important email: `, the message holds the subject verbatim, then the fixed `\nMatched keywords: ` separator, then the matched keywords joined with ", ". Every character is fixed. |
| Cycle.SmsFor | email_monitor.py:172-184 | There is one message per relevant email. |
| Cycle.SmsAppended | email_monitor.py:183-184 | A relevant verdict appends one message about the email it judged, with that email's subject and its matched keywords. Others append nothing. |
| Cycle.CountStep | email_monitor.py:172-173 | A relevant verdict bumps `matched_count` by one, and any other leaves it. |
| Cycle.SmsStep | email_monitor.py:172-184 | A relevant verdict appends one message with that email's subject and matched keywords, and bumps the count by one. Others change nothing. |
| Cycle.MonitorFailsOnlyWithoutSentences | email_monitor.py:153-170 | With the monitor's fixed keywords, the cycle runs to the end exactly when every email yields a sentence. |
| Cycle.MonitorLoop | email_monitor.py:163-184 | The loop's result is the reference outcome of the in-order pass. `matched_count` is the number of relevant verdicts, and exactly one message per relevant email is sent, in order, naming its subject and matched keywords. The first exception ends the cycle. |
| Cycle.MonitorCycle | email_monitor.py:151-188 | The monitor's `main` with its keywords and threshold 0.7. It aborts exactly when some email yields no sentence. Otherwise it counts and messages the relevant emails. |

## Left out

- IMAP: connecting, logging in, searching for unseen messages since a fixed
  date, fetching, and the `email` library's own parsing. The model starts from
  the fetched messages as given data (`Records.RawMessage`).
- The codec tables, `chardet`, and the `email` library's `decode_header`,
  `walk` and `get_payload(decode=True)`. They are parameters or given data.
- The OpenAI chat service (`Importance.Chat`), and the sentence-transformer
  embeddings with cosine similarity (a scoring parameter). Their float32
  arithmetic, NaN and tensor shapes are not modelled; scores are reals.
- `response.choices[0].message.content` being `None`. In Python that makes
  `"High" in analysis` raise a `TypeError`; the model treats every reply as a
  string.
- Twilio: placing a call and sending a message. The model records the TwiML
  and the message text. A delivery failure, which would end the cycle, is not
  modelled.
- Printing, colorama colouring, the monitor's printed summary block, `.env`
  loading and `KeyboardInterrupt` handling.
- The analyzer's `while True` and the 300-second sleep between cycles. One
  cycle is modelled.
- The record of both programs carries the sender. The analyzer does not store
  `From`; its cycle never reads the field.
- Cycle.AnalyzerCycle: does not state that the cycle completes exactly when no
  chat request raises. `Cycle.Scan` gives the equivalent per email: the pass
  stops at the first email whose `Importance.Analyze` fails.

=== FILE: cycle.dfy ===
/**
  One iteration of each program's `main` loop over the records `get_emails`
  returned: the analyzer's High/Medium/Low tally with a phone call per High
  email, and the monitor's match count with a text message per relevant email.
  Neither loop catches a classifier exception, so the first one ends the
  cycle; calls and messages already issued stay issued.
 */
module Cycle {
  import opened Wrappers
  import opened Text
  import opened Records
  import opened Importance
  import opened Relevance

  /** How far a sequential pass got: the outcomes so far and the exception that stopped it, if any. */
  datatype Progress<A, E> = Progress(done: seq<A>, failure: Option<E>)

  /** Classifies the records in order and stops at the first exception. */
  function Scan<A, E>(f: Record -> Result<A, E>, es: seq<Record>): (p: Progress<A, E>)
    decreases |es|
    ensures |p.done| <= |es|
    ensures forall i :: 0 <= i < |p.done| ==> f(es[i]) == Success(p.done[i])
    ensures p.failure.None? <==> |p.done| == |es|
    ensures p.failure.Some? ==> f(es[|p.done|]) == Failure(p.failure.value)
  {
    if |es| == 0 then Progress([], None)
    else
      var p := Scan(f, es[..|es| - 1]);
      assert forall i :: 0 <= i < |es| - 1 ==> es[..|es| - 1][i] == es[i];
      if p.failure.Some? then p
      else match f(es[|es| - 1])
        case Failure(e) => Progress(p.done, Some(e))
        case Success(a) => Progress(p.done + [a], None)
  }

  /** After the first exception nothing further is classified. */
  lemma {:induction false} ScanStops<A, E>(f: Record -> Result<A, E>, es: seq<Record>, n: nat)
    requires n <= |es|
    requires Scan(f, es[..n]).failure.Some?
    ensures Scan(f, es) == Scan(f, es[..n])
    decreases |es| - n
  {
    if n < |es| {
      var front := es[..|es| - 1];
      assert front[..n] == es[..n];
      ScanStops(f, front, n);
    } else {
      assert es[..n] == es;
    }
  }

  lemma ScanStep<A, E>(f: Record -> Result<A, E>, es: seq<Record>, i: nat)
    requires i < |es|
    requires Scan(f, es[..i]).failure.None?
    ensures f(es[i]).Failure? ==> Scan(f, es[..i + 1]) == Progress(Scan(f, es[..i]).done, Some(f(es[i]).error))
    ensures f(es[i]).Success? ==> Scan(f, es[..i + 1]) == Progress(Scan(f, es[..i]).done + [f(es[i]).value], None)
  {
    assert es[..i + 1][..i] == es[..i];
  }

  /** The record at `i` raised: the whole pass ends there, with that exception. */
  lemma ScanFailsAt<A, E>(f: Record -> Result<A, E>, es: seq<Record>, i: nat)
    requires i < |es|
    requires Scan(f, es[..i]).failure.None? && f(es[i]).Failure?
    ensures Scan(f, es) == Progress(Scan(f, es[..i]).done, Some(f(es[i]).error))
  {
    ScanStep(f, es, i);
    ScanStops(f, es, i + 1);
  }

  // ----- The analyzer's cycle -----

  /** `important_count`, `medium_count` and `low_count`. */
  datatype Tally = Tally(high: nat, medium: nat, low: nat)

  function Categories(done: seq<Analysis>): (cs: seq<Category>)
    ensures |cs| == |done|
    ensures forall i :: 0 <= i < |done| ==> cs[i] == done[i].category
  {
    seq(|done|, i requires 0 <= i < |done| => done[i].category)
  }

  /** Reference tally: how many analyses fall in each category. */
  function TallyOf(done: seq<Analysis>): Tally {
    var m := multiset(Categories(done));
    Tally(m[High], m[Medium], m[Low])
  }

  lemma {:induction false} CategoryCountsCover(cs: seq<Category>)
    ensures multiset(cs)[High] + multiset(cs)[Medium] + multiset(cs)[Low] == |cs|
  {
    if |cs| > 0 {
      CategoryCountsCover(cs[1..]);
      assert cs == [cs[0]] + cs[1..];
      var m, r := multiset(cs), multiset(cs[1..]);
      assert m == multiset{cs[0]} + r;
      assert m[High] == r[High] + (if cs[0] == High then 1 else 0);
      assert m[Medium] == r[Medium] + (if cs[0] == Medium then 1 else 0);
      assert m[Low] == r[Low] + (if cs[0] == Low then 1 else 0);
    }
  }

  /** The `if importance == "High" ... elif "Medium" ... else` counter update. */
  function Bump(t: Tally, c: Category): (r: Tally)
    ensures r.high == t.high + (if c == High then 1 else 0)
    ensures r.medium == t.medium + (if c == Medium then 1 else 0)
    ensures r.low == t.low + (if c == Low then 1 else 0)
  {
    match c
    case High => t.(high := t.high + 1)
    case Medium => t.(medium := t.medium + 1)
    case Low => t.(low := t.low + 1)
  }

  lemma TallyStep(done: seq<Analysis>, a: Analysis)
    ensures TallyOf(done + [a]) == Bump(TallyOf(done), a.category)
  {
    assert Categories(done + [a]) == Categories(done) + [a.category];
  }

  const SayOpen: string := "<Response><Say voice=\"alice\">"
  const SayClose: string := "</Say></Response>"

  /** What a `Response` with a single `Say` element speaks, if it is one. */
  function SpokenText(twiml: string): Option<string> {
    if |twiml| >= |SayOpen| + |SayClose| && twiml[..|SayOpen|] == SayOpen && twiml[|twiml| - |SayClose|..] == SayClose
    then Some(twiml[|SayOpen|..|twiml| - |SayClose|])
    else None
  }

  /** The TwiML the call speaks: exactly the summary, inside a `Say` with the "alice" voice. */
  function CallTwiml(summary: string): (t: string)
    ensures SpokenText(t) == Some(summary)
  {
    var t := SayOpen + summary + SayClose;
    assert t[..|SayOpen|] == SayOpen;
    assert t[|t| - |SayClose|..] == SayClose;
    assert t[|SayOpen|..|t| - |SayClose|] == summary;
    t
  }

  /** Reference calls: one per High analysis, in order, carrying its summary. */
  function CallsFor(done: seq<Analysis>): (calls: seq<string>)
    ensures |calls| == multiset(Categories(done))[High]
  {
    if |done| == 0 then []
    else
      var last := done[|done| - 1];
      assert Categories(done) == Categories(done[..|done| - 1]) + [last.category];
      CallsFor(done[..|done| - 1]) + (if last.category == High then [CallTwiml(last.summary)] else [])
  }

  lemma CallsStep(done: seq<Analysis>, a: Analysis)
    ensures CallsFor(done + [a]) == CallsFor(done) + (if a.category == High then [CallTwiml(a.summary)] else [])
  {
    assert (done + [a])[..|done|] == done;
  }

  lemma AnalyzerStep(f: Record -> Result<Analysis, ServiceError>, emails: seq<Record>, i: nat)
    requires i < |emails|
    requires Scan(f, emails[..i]).failure.None? && f(emails[i]).Success?
    ensures var done := Scan(f, emails[..i]).done;
      var a := f(emails[i]).value;
      && Scan(f, emails[..i + 1]) == Progress(done + [a], None)
      && TallyOf(done + [a]) == Bump(TallyOf(done), a.category)
      && CallsFor(done + [a]) == CallsFor(done) + (if a.category == High then [CallTwiml(a.summary)] else [])
  {
    ScanStep(f, emails, i);
    TallyStep(Scan(f, emails[..i]).done, f(emails[i]).value);
    CallsStep(Scan(f, emails[..i]).done, f(emails[i]).value);
  }

  /** What one analyzer cycle produced: the calls placed, the counters, and the exception that ended it. */
  datatype AnalyzerReport = AnalyzerReport(calls: seq<string>, tally: Tally, aborted: Option<ServiceError>)

  /** Reference outcome of a pass: a call per High analysis, the category counts, and the exception that ended it. */
  function AnalyzerOutcome(p: Progress<Analysis, ServiceError>): AnalyzerReport {
    AnalyzerReport(CallsFor(p.done), TallyOf(p.done), p.failure)
  }

  function AnalyzeRecord(chat: Chat): Record -> Result<Analysis, ServiceError> {
    (e: Record) => Analyze(chat, e.subject, e.body)
  }

  /**
    The analyzer's per-email loop for a given classifier. The counters start
    at 0 and count the analyses by category; a call is placed for exactly the
    High ones, in order, with their summaries.
   */
  method AnalyzerLoop(f: Record -> Result<Analysis, ServiceError>, emails: seq<Record>) returns (report: AnalyzerReport)
    ensures report == AnalyzerOutcome(Scan(f, emails))
  {
    var calls: seq<string> := [];
    var tally := Tally(0, 0, 0);
    var i := 0;
    while i < |emails|
      invariant i <= |emails|
      invariant Scan(f, emails[..i]).failure.None?
      invariant tally == TallyOf(Scan(f, emails[..i]).done)
      invariant calls == CallsFor(Scan(f, emails[..i]).done)
    {
      var outcome := f(emails[i]);
      if outcome.Failure? {
        ScanFailsAt(f, emails, i);
        report := AnalyzerReport(calls, tally, Some(outcome.error));
        return;
      }
      var a := outcome.value;
      AnalyzerStep(f, emails, i);
      tally := Bump(tally, a.category);
      if a.category == High {
        calls := calls + [CallTwiml(a.summary)];
      }
      i := i + 1;
    }
    assert emails[..i] == emails;
    report := AnalyzerReport(calls, tally, None);
  }

  /**
    The body of the analyzer's `while True`, once, classifying with
    `analyze_email`. When no chat request raises, the three counters add up to
    the number of emails; the first request that raises ends the cycle.
   */
  method AnalyzerCycle(chat: Chat, emails: seq<Record>) returns (report: AnalyzerReport)
    ensures var p := Scan(AnalyzeRecord(chat), emails);
      && report.aborted == p.failure
      && report.tally == TallyOf(p.done)
      && report.calls == CallsFor(p.done)
    ensures report.aborted.None? ==> report.tally.high + report.tally.medium + report.tally.low == |emails|
    ensures |report.calls| == report.tally.high
  {
    report := AnalyzerLoop(AnalyzeRecord(chat), emails);
    CategoryCountsCover(Categories(Scan(AnalyzeRecord(chat), emails).done));
  }

  // ----- The monitor's cycle -----

  function Flags(done: seq<Verdict>): (bs: seq<bool>)
    ensures |bs| == |done|
    ensures forall i :: 0 <= i < |done| ==> bs[i] == done[i].relevant
  {
    seq(|done|, i requires 0 <= i < |done| => done[i].relevant)
  }

  /** Reference count: how many verdicts say relevant. */
  function RelevantCount(done: seq<Verdict>): nat {
    multiset(Flags(done))[true]
  }

  /** The text message for a relevant email: its subject and its matched keywords. */
  const SmsLead: string := "Important email: "
  const KeywordsLead: string := "\nMatched keywords: "

  /**
    The text message for a relevant email: after a fixed lead, its subject
    verbatim, then a fixed line break and label, then the matched keywords
    joined with ", ".
   */
  function SmsText(subject: string, keywords: seq<string>): (r: string)
    ensures |SmsLead| + |subject| + |KeywordsLead| <= |r|
    ensures r[..|SmsLead|] == SmsLead
    ensures OccursAt(r, subject, |SmsLead|)
    ensures OccursAt(r, KeywordsLead, |SmsLead| + |subject|)
    ensures r[|SmsLead| + |subject| + |KeywordsLead|..] == Join(keywords, ", ")
  {
    var r := SmsLead + subject + KeywordsLead + Join(keywords, ", ");
    assert r[..|SmsLead|] == SmsLead;
    assert r[|SmsLead|..|SmsLead| + |subject|] == subject;
    assert r[|SmsLead| + |subject|..|SmsLead| + |subject| + |KeywordsLead|] == KeywordsLead;
    assert r[|SmsLead| + |subject| + |KeywordsLead|..] == Join(keywords, ", ");
    r
  }

  /** Reference messages: one per relevant verdict, in order, about the email it judged. */
  function SmsFor(emails: seq<Record>, done: seq<Verdict>): (sms: seq<string>)
    requires |done| <= |emails|
    ensures |sms| == RelevantCount(done)
  {
    if |done| == 0 then []
    else
      var n := |done| - 1;
      assert Flags(done) == Flags(done[..n]) + [done[n].relevant];
      SmsFor(emails, done[..n]) + (if done[n].relevant then [SmsText(emails[n].subject, done[n].keywords)] else [])
  }

  lemma SmsStep(emails: seq<Record>, done: seq<Verdict>, v: Verdict)
    requires |done| < |emails|
    ensures SmsFor(emails, done + [v]) ==
      SmsFor(emails, done) + (if v.relevant then [SmsText(emails[|done|].subject, v.keywords)] else [])
    ensures RelevantCount(done + [v]) == RelevantCount(done) + (if v.relevant then 1 else 0)
  {
    SmsAppended(emails, done, v);
    CountStep(done, v);
  }

  /** A relevant verdict appends the text message about its email; any other appends nothing. */
  lemma SmsAppended(emails: seq<Record>, done: seq<Verdict>, v: Verdict)
    requires |done| < |emails|
    ensures SmsFor(emails, done + [v]) ==
      SmsFor(emails, done) + (if v.relevant then [SmsText(emails[|done|].subject, v.keywords)] else [])
  {
    assert (done + [v])[..|done|] == done;
  }

  /** A relevant verdict bumps `matched_count` by one; any other leaves it. */
  lemma CountStep(done: seq<Verdict>, v: Verdict)
    ensures RelevantCount(done + [v]) == RelevantCount(done) + (if v.relevant then 1 else 0)
  {
    assert Flags(done + [v]) == Flags(done) + [v.relevant];
  }

  /** With the monitor's non-empty keyword list, only an email without sentences can raise. */
  lemma MonitorFailsOnlyWithoutSentences(sim: (string, string) -> real, emails: seq<Record>)
    ensures Scan(AssessRecord(sim), emails).failure.None? <==>
      forall i :: 0 <= i < |emails| ==> Sentences(EmailText(emails[i].subject, emails[i].body)) != []
  {
    var f := AssessRecord(sim);
    var p := Scan(f, emails);
    assert forall i :: 0 <= i < |emails| ==>
      (f(emails[i]).Failure? <==> Sentences(EmailText(emails[i].subject, emails[i].body)) == []);
    if p.failure.Some? {
      var k := |p.done|;
      assert Sentences(EmailText(emails[k].subject, emails[k].body)) == [];
    }
  }

  lemma MonitorStep(f: Record -> Result<Verdict, MatchError>, emails: seq<Record>, i: nat)
    requires i < |emails|
    requires Scan(f, emails[..i]).failure.None? && f(emails[i]).Success?
    ensures var done := Scan(f, emails[..i]).done;
      var v := f(emails[i]).value;
      && Scan(f, emails[..i + 1]) == Progress(done + [v], None)
      && RelevantCount(done + [v]) == RelevantCount(done) + (if v.relevant then 1 else 0)
      && SmsFor(emails, done + [v]) ==
           SmsFor(emails, done) + (if v.relevant then [SmsText(emails[i].subject, v.keywords)] else [])
  {
    ScanStep(f, emails, i);
    SmsStep(emails, Scan(f, emails[..i]).done, f(emails[i]).value);
  }

  /** What one monitor cycle produced: the messages sent, `matched_count`, and the exception that ended it. */
  datatype MonitorReport = MonitorReport(sms: seq<string>, matched: nat, aborted: Option<MatchError>)

  /** Reference outcome of a pass: a message per relevant verdict, their number, and the exception that ended it. */
  function MonitorOutcome(emails: seq<Record>, p: Progress<Verdict, MatchError>): MonitorReport
    requires |p.done| <= |emails|
  {
    MonitorReport(SmsFor(emails, p.done), RelevantCount(p.done), p.failure)
  }

  function AssessRecord(sim: (string, string) -> real): Record -> Result<Verdict, MatchError> {
    (e: Record) => CheckRelevance(sim, e.subject, e.body, MonitorKeywords, DefaultThreshold)
  }

  /**
    The monitor's per-email loop for a given relevance check: `matched_count`
    counts the relevant verdicts and one message is sent for each, in order.
   */
  method MonitorLoop(f: Record -> Result<Verdict, MatchError>, emails: seq<Record>) returns (report: MonitorReport)
    ensures report == MonitorOutcome(emails, Scan(f, emails))
  {
    var sms: seq<string> := [];
    var matched := 0;
    var i := 0;
    while i < |emails|
      invariant i <= |emails|
      invariant Scan(f, emails[..i]).failure.None?
      invariant matched == RelevantCount(Scan(f, emails[..i]).done)
      invariant sms == SmsFor(emails, Scan(f, emails[..i]).done)
    {
      var outcome := f(emails[i]);
      if outcome.Failure? {
        ScanFailsAt(f, emails, i);
        report := MonitorReport(sms, matched, Some(outcome.error));
        return;
      }
      var v := outcome.value;
      MonitorStep(f, emails, i);
      if v.relevant {
        matched := matched + 1;
        sms := sms + [SmsText(emails[i].subject, v.keywords)];
      }
      i := i + 1;
    }
    assert emails[..i] == emails;
    report := MonitorReport(sms, matched, None);
  }

  /**
    The monitor's `main`, once, with its fixed keywords and the default
    threshold. `matched_count` is the number of relevant emails and a message
    is sent for exactly those; the cycle ends early only on an email that
    yields no sentence.
   */
  method MonitorCycle(sim: (string, string) -> real, emails: seq<Record>) returns (report: MonitorReport)
    ensures var p := Scan(AssessRecord(sim), emails);
      && report.aborted == p.failure
      && report.matched == RelevantCount(p.done)
      && report.sms == SmsFor(emails, p.done)
    ensures report.matched <= |emails|
    ensures |report.sms| == report.matched
    ensures report.aborted.None? <==>
      forall i :: 0 <= i < |emails| ==> Sentences(EmailText(emails[i].subject, emails[i].body)) != []
  {
    report := MonitorLoop(AssessRecord(sim), emails);
    MonitorFailsOnlyWithoutSentences(sim, emails);
  }
}

=== FILE: importance.dfy ===
/**
  `analyze_email`: a first chat request asks for an importance verdict, the
  category is read off the free-text reply by substring tests, and only a
  High verdict triggers a second request for a one-sentence summary. The chat
  service is an opaque function from requests to replies, which may raise.
 */
module Importance {
  import opened Wrappers
  import opened Text

  datatype Category = High | Medium | Low

  /** One `client.chat.completions.create` call: model, system message, user message. */
  datatype ChatRequest = ChatRequest(model: string, system: string, user: string)

  /** An exception raised by the chat service. */
  datatype ServiceError = ServiceError(reason: string)

  /** The chat service: the reply content for a request, or the exception it raises. */
  type Chat = ChatRequest -> Result<string, ServiceError>

  const ChatModel: string := "gpt-4"

  const AnalystRole: string :=
    "You are an AI assistant that analyzes emails and determines their importance based on severity High, Medium or Low."

  const SummarizerRole: string := "You are an AI assistant that provides concise summaries of emails."

  /** The fixed pieces of the two user prompts. */
  const ImportanceLead: string := "Analyze the following email:\n\nSubject: "
  const SummaryLead: string := "Summarize this email in one sentence: \n\nSubject: "
  const BodyLead: string := "\n\nBody: "
  const ImportanceTail: string :=
    "\n\nIs this email important? Provide a brief summary and classify its importance as 'High', 'Medium', or 'Low'."

  /**
    The importance question: the analyst role, and a prompt that opens with a
    fixed lead, quotes the subject, a fixed separator and the body verbatim,
    and closes with the fixed question asking for 'High', 'Medium' or 'Low'.
   */
  function ImportanceRequest(subject: string, body: string): (r: ChatRequest)
    ensures r.model == ChatModel && r.system == AnalystRole
    ensures |r.user| == |ImportanceLead| + |subject| + |BodyLead| + |body| + |ImportanceTail|
    ensures r.user[..|ImportanceLead|] == ImportanceLead
    ensures OccursAt(r.user, subject, |ImportanceLead|)
    ensures OccursAt(r.user, BodyLead, |ImportanceLead| + |subject|)
    ensures OccursAt(r.user, body, |ImportanceLead| + |subject| + |BodyLead|)
    ensures r.user[|r.user| - |ImportanceTail|..] == ImportanceTail
  {
    var user := ImportanceLead + subject + BodyLead + body + ImportanceTail;
    assert user[..|ImportanceLead|] == ImportanceLead;
    assert user[|ImportanceLead| + |subject|..|ImportanceLead| + |subject| + |BodyLead|] == BodyLead;
    assert user[|user| - |ImportanceTail|..] == ImportanceTail;
    assert user[|ImportanceLead|..|ImportanceLead| + |subject|] == subject;
    assert user[|ImportanceLead| + |subject| + |BodyLead|..|ImportanceLead| + |subject| + |BodyLead| + |body|] == body;
    ChatRequest(ChatModel, AnalystRole, user)
  }

  /** The summary request: the summarizer role, and a prompt of a fixed lead, the subject, a fixed separator and the body. */
  function SummaryRequest(subject: string, body: string): (r: ChatRequest)
    ensures r.model == ChatModel && r.system == SummarizerRole
    ensures |r.user| == |SummaryLead| + |subject| + |BodyLead| + |body|
    ensures r.user[..|SummaryLead|] == SummaryLead
    ensures OccursAt(r.user, subject, |SummaryLead|)
    ensures OccursAt(r.user, BodyLead, |SummaryLead| + |subject|)
    ensures OccursAt(r.user, body, |r.user| - |body|)
  {
    var user := SummaryLead + subject + BodyLead + body;
    assert user[..|SummaryLead|] == SummaryLead;
    assert user[|SummaryLead| + |subject|..|SummaryLead| + |subject| + |BodyLead|] == BodyLead;
    assert user[|SummaryLead|..|SummaryLead| + |subject|] == subject;
    assert user[|user| - |body|..] == body;
    ChatRequest(ChatModel, SummarizerRole, user)
  }

  /** The category a reply is read as: "High" is tested before "Medium"; anything else is Low. */
  function Classify(reply: string): (c: Category)
    ensures c == High <==> Contains(reply, "High")
    ensures c == Medium <==> !Contains(reply, "High") && Contains(reply, "Medium")
    ensures c == Low <==> !Contains(reply, "High") && !Contains(reply, "Medium")
  {
    if Contains(reply, "High") then High
    else if Contains(reply, "Medium") then Medium
    else Low
  }

  /** Low < Medium < High. */
  function Rank(c: Category): (n: nat)
    ensures n < 3
  {
    match c
    case Low => 0
    case Medium => 1
    case High => 2
  }

  /** The ranks order the categories Low < Medium < High. */
  lemma RankOrder()
    ensures Rank(Low) < Rank(Medium) < Rank(High)
  {
  }

  /** Adding text around a reply can raise its category but never lower it. */
  lemma ClassifyMonotone(reply: string, before: string, after: string)
    ensures Rank(Classify(reply)) <= Rank(Classify(before + reply + after))
  {
    if Contains(reply, "High") {
      ContainsExtended(reply, "High", before, after);
    } else if Contains(reply, "Medium") {
      ContainsExtended(reply, "Medium", before, after);
    }
  }

  /**
    The outcome of `analyze_email`: its `(importance, summary)` pair, plus the
    chat requests it issued, in order.
   */
  datatype Analysis = Analysis(category: Category, summary: string, requests: seq<ChatRequest>)

  /**
    `analyze_email(subject, body)`. The first request is always the importance
    question; a second one, the summary request, is issued exactly for High,
    and its reply becomes the summary; otherwise the summary is "". An
    exception from either request propagates.
   */
  function Analyze(chat: Chat, subject: string, body: string): (r: Result<Analysis, ServiceError>)
    ensures r.Success? ==>
      && 1 <= |r.value.requests| <= 2
      && r.value.requests[0] == ImportanceRequest(subject, body)
      && chat(r.value.requests[0]).Success?
      && r.value.category == Classify(chat(r.value.requests[0]).value)
    ensures r.Success? && r.value.category == High ==>
      && |r.value.requests| == 2
      && r.value.requests[1] == SummaryRequest(subject, body)
      && chat(r.value.requests[1]) == Success(r.value.summary)
    ensures r.Success? && r.value.category != High ==> |r.value.requests| == 1 && r.value.summary == ""
    ensures r.Failure? <==>
      || chat(ImportanceRequest(subject, body)).Failure?
      || (Classify(chat(ImportanceRequest(subject, body)).value) == High && chat(SummaryRequest(subject, body)).Failure?)
  {
    var first := ImportanceRequest(subject, body);
    match chat(first)
    case Failure(e) => Failure(e)
    case Success(analysis) =>
      var category := Classify(analysis);
      if category != High then
        Success(Analysis(category, "", [first]))
      else
        var second := SummaryRequest(subject, body);
        match chat(second)
        case Failure(e) => Failure(e)
        case Success(summary) => Success(Analysis(High, summary, [first, second]))
  }
}

=== FILE: normalizer.dfy ===
/**
  The fallback decoder `safe_decode` that both programs use to turn payload
  bytes into text. The charset detector, Python's codec registry and the
  codecs themselves are collaborators passed in as a `Codecs` value.
 */
module Normalizer {
  import opened Wrappers
  import opened PyBytes

  /** The six fixed fallback codecs, and any other codec by the name the detector gave. */
  datatype Encoding = Utf8 | Iso8859_1 | Windows1252 | Ascii | Latin1 | Cp1252 | Named(name: string)

  /**
    `detect` stands for chardet's `encoding` field, `known` for the codec
    registry's lookup of a name, and `decode` for `bytes.decode` with strict
    errors: `None` is a `UnicodeDecodeError`.
   */
  datatype Codecs = Codecs(
    detect: Bytes -> Option<Encoding>,
    known: string -> bool,
    decode: (Encoding, Bytes) -> Option<string>)

  /** The `LookupError` that `bytes.decode` raises for a codec name Python does not know. */
  datatype DecodeError = UnknownEncoding(name: string)

  const Fallbacks: seq<Encoding> := [Utf8, Iso8859_1, Windows1252, Ascii, Latin1, Cp1252]

  /** chardet's answer is used only when it is truthy: neither `None` nor an empty name. */
  predicate Proposes(detected: Option<Encoding>) {
    detected.Some? && detected.value != Named("")
  }

  /**
    The order in which codecs are tried. A proposed codec goes in front of
    the fixed list without removing it from the list, so a detected `utf-8`
    is tried twice.
   */
  function Candidates(detected: Option<Encoding>): seq<Encoding> {
    if Proposes(detected) then [detected.value] + Fallbacks else Fallbacks
  }

  /**
    A proposed codec adds one candidate in front of the six fallbacks, and a
    detected `utf-8` is therefore tried first and again second.
   */
  lemma CandidatesKeepRepeats(detected: Option<Encoding>)
    ensures |Candidates(detected)| == if Proposes(detected) then 7 else 6
    ensures Proposes(detected) ==> Candidates(detected)[0] == detected.value && Candidates(detected)[1..] == Fallbacks
    ensures Candidates(Some(Utf8))[0] == Candidates(Some(Utf8))[1] == Utf8
  {
  }

  /** The fixed codecs always exist; a detected name only if the registry knows it. */
  predicate Usable(c: Codecs, e: Encoding) {
    !e.Named? || c.known(e.name)
  }

  predicate Accepts(c: Codecs, e: Encoding, b: Bytes) {
    Usable(c, e) && c.decode(e, b).Some?
  }

  predicate Rejects(c: Codecs, e: Encoding, b: Bytes) {
    Usable(c, e) && c.decode(e, b).None?
  }

  /** `cs[i]` decodes `b` and every codec before it raised `UnicodeDecodeError`. */
  predicate FirstAccepting(c: Codecs, cs: seq<Encoding>, b: Bytes, i: int) {
    0 <= i < |cs| && Accepts(c, cs[i], b) && forall j :: 0 <= j < i ==> Rejects(c, cs[j], b)
  }

  /** `cs[i]` is an unknown codec name and every codec before it raised `UnicodeDecodeError`. */
  predicate FirstUnknown(c: Codecs, cs: seq<Encoding>, b: Bytes, i: int) {
    0 <= i < |cs| && !Usable(c, cs[i]) && forall j :: 0 <= j < i ==> Rejects(c, cs[j], b)
  }

  /**
    The `for encoding in encodings` loop: `Success(Some(text))` when a codec
    decodes, `Success(None)` when every codec raised `UnicodeDecodeError`, and
    `Failure` when a `LookupError` escapes the loop.
   */
  function TryEach(c: Codecs, cs: seq<Encoding>, b: Bytes): (r: Result<Option<string>, DecodeError>)
    ensures forall i :: FirstAccepting(c, cs, b, i) ==> r == Success(c.decode(cs[i], b))
    ensures forall i :: FirstUnknown(c, cs, b, i) ==> r == Failure(UnknownEncoding(cs[i].name))
    ensures r == Success(None) <==> forall i :: 0 <= i < |cs| ==> Rejects(c, cs[i], b)
    ensures r.Success? && r.value.Some? ==> exists i :: FirstAccepting(c, cs, b, i)
    ensures r.Failure? ==> exists i :: FirstUnknown(c, cs, b, i)
  {
    if |cs| == 0 then Success(None)
    else if !Usable(c, cs[0]) then
      assert FirstUnknown(c, cs, b, 0);
      Failure(UnknownEncoding(cs[0].name))
    else if c.decode(cs[0], b).Some? then
      assert FirstAccepting(c, cs, b, 0);
      Success(c.decode(cs[0], b))
    else
      var r := TryEach(c, cs[1..], b);
      AfterRejection(c, cs, b);
      r
  }

  /** Once the first codec rejects, the first accepting or unknown codec is found among the rest. */
  lemma AfterRejection(c: Codecs, cs: seq<Encoding>, b: Bytes)
    requires |cs| > 0 && Rejects(c, cs[0], b)
    ensures forall i :: FirstAccepting(c, cs, b, i) ==> FirstAccepting(c, cs[1..], b, i - 1)
    ensures forall i :: FirstUnknown(c, cs, b, i) ==> FirstUnknown(c, cs[1..], b, i - 1)
    ensures forall i :: FirstAccepting(c, cs[1..], b, i) ==> FirstAccepting(c, cs, b, i + 1)
    ensures forall i :: FirstUnknown(c, cs[1..], b, i) ==> FirstUnknown(c, cs, b, i + 1)
  {
    forall i | FirstAccepting(c, cs[1..], b, i)
      ensures FirstAccepting(c, cs, b, i + 1)
    {
      assert forall j :: 1 <= j < i + 1 ==> cs[j] == cs[1..][j - 1];
    }
    forall i | FirstUnknown(c, cs[1..], b, i)
      ensures FirstUnknown(c, cs, b, i + 1)
    {
      assert forall j :: 1 <= j < i + 1 ==> cs[j] == cs[1..][j - 1];
    }
  }

  /**
    `safe_decode(payload)`: `""` for `None`; otherwise the text of the first
    candidate codec that decodes the bytes, or `str(payload)` when all of them
    raise `UnicodeDecodeError`. Only a detected codec name that Python does not
    know makes it fail.
   */
  function SafeDecode(c: Codecs, payload: Option<Bytes>): (r: Result<string, DecodeError>)
    ensures payload.None? ==> r == Success("")
    ensures payload.Some? ==>
      var b := payload.value;
      var d := c.detect(b);
      Proposes(d) && Accepts(c, d.value, b) ==> r == Success(c.decode(d.value, b).value)
    ensures payload.Some? ==>
      var b := payload.value;
      var cs := Candidates(c.detect(b));
      forall i :: FirstAccepting(c, cs, b, i) ==> r == Success(c.decode(cs[i], b).value)
    ensures payload.Some? ==>
      var b := payload.value;
      var cs := Candidates(c.detect(b));
      (forall i :: 0 <= i < |cs| ==> Rejects(c, cs[i], b)) ==> r == Success(Repr(b))
    ensures r.Failure? ==>
      payload.Some? && Proposes(c.detect(payload.value)) && !Usable(c, c.detect(payload.value).value)
    ensures payload.Some? && Proposes(c.detect(payload.value)) && !Usable(c, c.detect(payload.value).value) ==>
      r == Failure(UnknownEncoding(c.detect(payload.value).value.name))
  {
    match payload
    case None => Success("")
    case Some(b) =>
      var cs := Candidates(c.detect(b));
      assert Proposes(c.detect(b)) && Accepts(c, c.detect(b).value, b) ==> FirstAccepting(c, cs, b, 0);
      assert Proposes(c.detect(b)) && !Usable(c, c.detect(b).value) ==> FirstUnknown(c, cs, b, 0);
      match TryEach(c, cs, b)
      case Failure(e) =>
        assert forall i :: 0 < i < |cs| ==> Usable(c, cs[i]);
        Failure(e)
      case Success(Some(text)) => Success(text)
      case Success(None) => Success(Repr(b))
  }

  /**
    The `str(payload)` branch is unreachable whenever ISO-8859-1, one of the
    fixed fallbacks, decodes the payload.
   */
  lemma RenderingNeedsEveryCodecToFail(c: Codecs, b: Bytes)
    requires c.decode(Iso8859_1, b).Some?
    ensures TryEach(c, Candidates(c.detect(b)), b) != Success(None)
  {
    var cs := Candidates(c.detect(b));
    var k := if Proposes(c.detect(b)) then 2 else 1;
    assert cs[k] == Iso8859_1 && !Rejects(c, cs[k], b);
  }

  /** Bytes that are not UTF-8 but are ISO-8859-1 decode as ISO-8859-1, without error. */
  lemma Iso88591Fallback(c: Codecs, b: Bytes, text: string)
    requires !Proposes(c.detect(b))
    requires c.decode(Utf8, b).None? && c.decode(Iso8859_1, b) == Some(text)
    ensures SafeDecode(c, Some(b)) == Success(text)
  {
    assert FirstAccepting(c, Candidates(c.detect(b)), b, 1);
  }
}

=== FILE: pybytes.dfy ===
/**
  Bytes, and the text Python's `str()` gives for a `bytes` value: the
  literal `b'...'`, which is what the fallback decoder returns when no
  codec accepts a payload.
 */
module PyBytes {
  import opened Wrappers

  newtype byte = x: int | 0 <= x < 256

  type Bytes = seq<byte>

  /** Characters Python writes unescaped inside a bytes literal. */
  predicate Printable(ch: char) {
    ' ' <= ch <= '~'
  }

  function HexDigit(d: int): (ch: char)
    requires 0 <= d < 16
    ensures Printable(ch)
  {
    if d < 10 then ('0' as int + d) as char else ('a' as int + d - 10) as char
  }

  predicate IsHexDigit(ch: char) {
    '0' <= ch <= '9' || 'a' <= ch <= 'f'
  }

  function HexValue(ch: char): (d: int)
    requires IsHexDigit(ch)
    ensures 0 <= d < 16
  {
    if ch <= '9' then ch as int - '0' as int else ch as int - 'a' as int + 10
  }

  /** Python quotes with `"` only when the bytes hold a `'` and no `"`. */
  function QuoteFor(b: Bytes): (q: char)
    ensures q == '\'' || q == '"'
    ensures q == '"' ==> 34 !in b
  {
    if 39 in b && 34 !in b then '"' else '\''
  }

  /** The escaped form of one byte inside a literal quoted with `q`. */
  function EscapeByte(c: byte, q: char): (r: seq<char>)
    requires q == '\'' || q == '"'
    ensures 1 <= |r| <= 4
    ensures forall k :: 0 <= k < |r| ==> Printable(r[k])
    ensures r[0] == '\\' || r == [c as int as char]
  {
    if c as int == q as int || c == 92 then ['\\', c as int as char]
    else if c == 9 then "\\t"
    else if c == 10 then "\\n"
    else if c == 13 then "\\r"
    else if c < 32 || c >= 127 then ['\\', 'x', HexDigit(c as int / 16), HexDigit(c as int % 16)]
    else [c as int as char]
  }

  function EscapeAll(b: Bytes, q: char): (r: seq<char>)
    requires q == '\'' || q == '"'
    ensures |b| <= |r| <= 4 * |b|
    ensures forall k :: 0 <= k < |r| ==> Printable(r[k])
  {
    if |b| == 0 then [] else EscapeByte(b[0], q) + EscapeAll(b[1..], q)
  }

  /** `str(b)` for a Python `bytes` value `b`. */
  function Repr(b: Bytes): (r: string)
    ensures |r| >= 3 && r[0] == 'b'
    ensures r[1] == r[|r| - 1] && (r[1] == '\'' || r[1] == '"')
    ensures forall k :: 0 <= k < |r| ==> Printable(r[k])
  {
    var q := QuoteFor(b);
    ['b', q] + EscapeAll(b, q) + [q]
  }

  function Prepend(c: byte, rest: Option<Bytes>): Option<Bytes> {
    match rest
    case Some(t) => Some([c] + t)
    case None => None
  }

  /** Reads back the escaped body of a bytes literal (the inverse of EscapeAll). */
  function Unescape(s: seq<char>): Option<Bytes>
    decreases |s|
  {
    if |s| == 0 then Some([])
    else if s[0] != '\\' then
      if Printable(s[0]) then Prepend(s[0] as int as byte, Unescape(s[1..])) else None
    else if |s| < 2 then None
    else if s[1] == 'x' then
      if |s| >= 4 && IsHexDigit(s[2]) && IsHexDigit(s[3]) then
        Prepend((16 * HexValue(s[2]) + HexValue(s[3])) as byte, Unescape(s[4..]))
      else None
    else if s[1] == 't' then Prepend(9, Unescape(s[2..]))
    else if s[1] == 'n' then Prepend(10, Unescape(s[2..]))
    else if s[1] == 'r' then Prepend(13, Unescape(s[2..]))
    else if s[1] == '\\' || s[1] == '\'' || s[1] == '"' then Prepend(s[1] as int as byte, Unescape(s[2..]))
    else None
  }

  /** Reads back a whole `b'...'` literal. */
  function ParseRepr(r: string): Option<Bytes> {
    if |r| >= 3 && r[0] == 'b' && r[1] == r[|r| - 1] then Unescape(r[2..|r| - 1]) else None
  }

  lemma UnescapeEscapeByte(c: byte, q: char, rest: seq<char>)
    requires q == '\'' || q == '"'
    ensures Unescape(EscapeByte(c, q) + rest) == Prepend(c, Unescape(rest))
  {
    var e := EscapeByte(c, q);
    var s := e + rest;
    if c as int == q as int || c == 92 {
      assert s[2..] == rest;
    } else if c == 9 || c == 10 || c == 13 {
      assert s[2..] == rest;
    } else if c < 32 || c >= 127 {
      assert s[4..] == rest;
      assert HexValue(s[2]) == c as int / 16;
      assert HexValue(s[3]) == c as int % 16;
    } else {
      assert s[1..] == rest;
    }
  }

  lemma {:induction false} UnescapeEscapeAll(b: Bytes, q: char)
    requires q == '\'' || q == '"'
    ensures Unescape(EscapeAll(b, q)) == Some(b)
  {
    if |b| > 0 {
      UnescapeEscapeByte(b[0], q, EscapeAll(b[1..], q));
      UnescapeEscapeAll(b[1..], q);
      assert [b[0]] + b[1..] == b;
    }
  }

  /** The fallback rendering loses nothing: the literal reads back as the same bytes. */
  lemma ReprRoundTrip(b: Bytes)
    ensures ParseRepr(Repr(b)) == Some(b)
  {
    var q := QuoteFor(b);
    var r := Repr(b);
    assert r[2..|r| - 1] == EscapeAll(b, q);
    UnescapeEscapeAll(b, q);
  }
}

=== FILE: records.dfy ===
/**
  The parse stage of `get_emails`: turning each fetched message into a record
  with an id, a subject, a body and a sender, and skipping a message whose
  parse raises. The mail library's output (`decode_header` fragments, the
  `walk()` order of parts) is taken as given data.
 */
module Records {
  import opened Wrappers
  import opened PyBytes
  import opened Normalizer

  /** One element of `decode_header`'s list: a `str`, or `bytes` with its charset. */
  datatype Fragment = TextFragment(text: string) | ByteFragment(data: Bytes, charset: Option<string>)

  /**
    What `decode_header(message["Subject"])` gives: it raises when the header
    is absent (`None` is not a string) or an encoded word does not decode.
   */
  datatype SubjectHeader = Absent | Undecodable | Fragments(fragments: seq<Fragment>)

  /** A MIME part as `walk()` yields it: its content type and `get_payload(decode=True)`. */
  datatype Part = Part(contentType: string, payload: Option<Bytes>)

  datatype Content = Multipart(walk: seq<Part>) | SinglePart(payload: Option<Bytes>)

  datatype RawMessage = RawMessage(id: string, subject: SubjectHeader, sender: Option<string>, content: Content)

  /** The dictionary appended to `emails`. */
  datatype Record = Record(id: string, subject: string, body: string, sender: Option<string>)

  /** The exceptions the `try` in `get_emails` catches. */
  datatype ParseError = NoSubject | BadEncodedWord | NoFragment | Codec(cause: DecodeError)

  const TextPlain: string := "text/plain"

  function Lift<T>(r: Result<T, DecodeError>): Result<T, ParseError> {
    match r
    case Success(v) => Success(v)
    case Failure(e) => Failure(Codec(e))
  }

  /**
    The subject is the first fragment only; a `str` fragment is kept as it is
    and only a `bytes` fragment goes through the fallback decoder.
   */
  function DecodeSubject(c: Codecs, h: SubjectHeader): (r: Result<string, ParseError>)
    ensures r.Success? ==> h.Fragments? && |h.fragments| > 0
    ensures h.Fragments? && |h.fragments| > 0 && h.fragments[0].TextFragment? ==>
      r == Success(h.fragments[0].text)
    ensures h.Fragments? && |h.fragments| > 0 && h.fragments[0].ByteFragment? ==>
      r == Lift(SafeDecode(c, Some(h.fragments[0].data)))
  {
    match h
    case Absent => Failure(NoSubject)
    case Undecodable => Failure(BadEncodedWord)
    case Fragments(fs) =>
      if |fs| == 0 then Failure(NoFragment)
      else match fs[0]
        case TextFragment(t) => Success(t)
        case ByteFragment(data, _) => Lift(SafeDecode(c, Some(data)))
  }

  /** Fragments after the first never influence the subject. */
  lemma SubjectUsesFirstFragmentOnly(c: Codecs, f: Fragment, rest1: seq<Fragment>, rest2: seq<Fragment>)
    ensures DecodeSubject(c, Fragments([f] + rest1)) == DecodeSubject(c, Fragments([f] + rest2))
  {
    assert ([f] + rest1)[0] == f == ([f] + rest2)[0];
  }

  /** `parts[i]` is the first `text/plain` part in walk order. */
  predicate IsFirstTextPlain(parts: seq<Part>, i: int) {
    0 <= i < |parts| && parts[i].contentType == TextPlain &&
    forall j :: 0 <= j < i ==> parts[j].contentType != TextPlain
  }

  /** The index of the first `text/plain` part in walk order, if any. */
  function FirstTextPlain(parts: seq<Part>): (r: Option<nat>)
    ensures r.Some? ==> IsFirstTextPlain(parts, r.value)
    ensures r.None? <==> forall j :: 0 <= j < |parts| ==> parts[j].contentType != TextPlain
  {
    if |parts| == 0 then None
    else if parts[0].contentType == TextPlain then Some(0)
    else match FirstTextPlain(parts[1..])
      case None => None
      case Some(i) => Some(i + 1)
  }

  /**
    The body: for a multipart message the decoding of the first `text/plain`
    part (later ones are ignored), `""` when there is none; for a single-part
    message the decoding of its payload.
   */
  function ExtractBody(c: Codecs, content: Content): (r: Result<string, ParseError>)
    ensures content.Multipart? ==>
      forall i :: IsFirstTextPlain(content.walk, i) ==> r == Lift(SafeDecode(c, content.walk[i].payload))
    ensures content.Multipart? && (forall j :: 0 <= j < |content.walk| ==> content.walk[j].contentType != TextPlain) ==>
      r == Success("")
    ensures content.SinglePart? ==> r == Lift(SafeDecode(c, content.payload))
  {
    match content
    case Multipart(parts) =>
      (match FirstTextPlain(parts)
       case None => Success("")
       case Some(i) => Lift(SafeDecode(c, parts[i].payload)))
    case SinglePart(payload) => Lift(SafeDecode(c, payload))
  }

  /** Parts appended after the first `text/plain` part do not move it. */
  lemma {:induction false} FirstTextPlainStays(parts: seq<Part>, more: seq<Part>)
    requires FirstTextPlain(parts).Some?
    ensures FirstTextPlain(parts + more) == FirstTextPlain(parts)
  {
    var i := FirstTextPlain(parts).value;
    assert (parts + more)[i] == parts[i];
    assert forall j :: 0 <= j < i ==> (parts + more)[j] == parts[j];
  }

  /** Once a `text/plain` part has been seen, further parts do not change the body. */
  lemma LaterPartsIgnored(c: Codecs, parts: seq<Part>, more: seq<Part>)
    requires FirstTextPlain(parts).Some?
    ensures ExtractBody(c, Multipart(parts + more)) == ExtractBody(c, Multipart(parts))
  {
    FirstTextPlainStays(parts, more);
    assert (parts + more)[FirstTextPlain(parts).value] == parts[FirstTextPlain(parts).value];
  }

  /** A multipart message without a `text/plain` part (HTML only, say) has an empty body. */
  lemma HtmlOnlyBodyIsEmpty(c: Codecs, html: Bytes)
    ensures ExtractBody(c, Multipart([Part("multipart/alternative", None), Part("text/html", Some(html))])) == Success("")
  {
  }

  /** One message: the subject first, then the body; either may raise. */
  function BuildRecord(c: Codecs, m: RawMessage): (r: Result<Record, ParseError>)
    ensures r.Success? <==> DecodeSubject(c, m.subject).Success? && ExtractBody(c, m.content).Success?
    ensures r.Success? ==>
      r.value == Record(m.id, DecodeSubject(c, m.subject).value, ExtractBody(c, m.content).value, m.sender)
  {
    var subject :- DecodeSubject(c, m.subject);
    var body :- ExtractBody(c, m.content);
    Success(Record(m.id, subject, body, m.sender))
  }

  /** What one item contributes to the batch: its result, or nothing when its parse raises. */
  function Kept<M, R, E>(parse: M -> Result<R, E>, m: M): (r: seq<R>)
    ensures |r| <= 1
    ensures |r| == 1 <==> parse(m).Success?
    ensures |r| == 1 ==> parse(m) == Success(r[0])
  {
    match parse(m)
    case Success(rec) => [rec]
    case Failure(_) => []
  }

  /**
    The `for ... try ... except Exception: continue` loop: the results of the
    items whose parse succeeds, in order; the others are skipped.
   */
  function Collect<M, R, E>(parse: M -> Result<R, E>, msgs: seq<M>): (r: seq<R>)
    ensures |r| <= |msgs|
    ensures |r| == |msgs| <==> forall i :: 0 <= i < |msgs| ==> parse(msgs[i]).Success?
  {
    if |msgs| == 0 then []
    else
      var rest := Collect(parse, msgs[1..]);
      assert forall i :: 0 <= i < |msgs| - 1 ==> msgs[1..][i] == msgs[i + 1];
      Kept(parse, msgs[0]) + rest
  }

  /** Collecting distributes over concatenation of the batch. */
  lemma {:induction false} CollectAppend<M, R, E>(parse: M -> Result<R, E>, a: seq<M>, b: seq<M>)
    ensures Collect(parse, a + b) == Collect(parse, a) + Collect(parse, b)
  {
    if |a| == 0 {
      assert a + b == b;
    } else {
      assert (a + b)[0] == a[0];
      assert (a + b)[1..] == a[1..] + b;
      CollectAppend(parse, a[1..], b);
      calc {
        Collect(parse, a + b);
        Kept(parse, a[0]) + Collect(parse, a[1..] + b);
        Kept(parse, a[0]) + (Collect(parse, a[1..]) + Collect(parse, b));
        (Kept(parse, a[0]) + Collect(parse, a[1..])) + Collect(parse, b);
        Collect(parse, a) + Collect(parse, b);
      }
    }
  }

  lemma CollectSingle<M, R, E>(parse: M -> Result<R, E>, m: M)
    ensures Collect(parse, [m]) == Kept(parse, m)
  {
    assert [m][1..] == [];
  }

  /** An item whose parse raises is skipped and the rest of the batch is unaffected. */
  lemma {:induction false} FailureIsIsolated<M, R, E>(parse: M -> Result<R, E>, before: seq<M>, m: M, after: seq<M>)
    requires parse(m).Failure?
    ensures Collect(parse, before + [m] + after) == Collect(parse, before) + Collect(parse, after)
  {
    CollectAppend(parse, before + [m], after);
    CollectAppend(parse, before, [m]);
    CollectSingle(parse, m);
    assert Collect(parse, before) + [] == Collect(parse, before);
  }

  /** Every item that parses contributes its result, at its place in the batch. */
  lemma {:induction false} ParsedMessageKept<M, R, E>(parse: M -> Result<R, E>, before: seq<M>, m: M, after: seq<M>)
    requires parse(m).Success?
    ensures Collect(parse, before + [m] + after) == Collect(parse, before) + [parse(m).value] + Collect(parse, after)
  {
    CollectAppend(parse, before + [m], after);
    CollectAppend(parse, before, [m]);
    CollectSingle(parse, m);
  }

  /** The parse of one fetched message, as the loop in `get_emails` applies it. */
  function ParseWith(c: Codecs): RawMessage -> Result<Record, ParseError> {
    (m: RawMessage) => BuildRecord(c, m)
  }

  /** The records of the messages that parse, in fetch order; the others are skipped. */
  function GetEmails(c: Codecs, msgs: seq<RawMessage>): (r: seq<Record>)
    ensures |r| <= |msgs|
    ensures |r| == |msgs| <==> forall i :: 0 <= i < |msgs| ==> BuildRecord(c, msgs[i]).Success?
  {
    assert forall i :: 0 <= i < |msgs| ==> ParseWith(c)(msgs[i]) == BuildRecord(c, msgs[i]);
    Collect(ParseWith(c), msgs)
  }

  /** A fetched message alone gives its record when it parses, and nothing when the parse raises. */
  lemma GetEmailsOne(c: Codecs, m: RawMessage)
    ensures GetEmails(c, [m]) == if BuildRecord(c, m).Success? then [BuildRecord(c, m).value] else []
  {
    CollectSingle(ParseWith(c), m);
  }

  /** A message whose parse raises is skipped, and the records of the others are still returned. */
  lemma GetEmailsSkips(c: Codecs, before: seq<RawMessage>, m: RawMessage, after: seq<RawMessage>)
    requires ParseWith(c)(m).Failure?
    ensures GetEmails(c, before + [m] + after) == GetEmails(c, before) + GetEmails(c, after)
  {
    FailureIsIsolated(ParseWith(c), before, m, after);
  }

  /** A message that parses contributes its record, between the records of the messages around it. */
  lemma GetEmailsKeeps(c: Codecs, before: seq<RawMessage>, m: RawMessage, after: seq<RawMessage>)
    requires ParseWith(c)(m).Success?
    ensures GetEmails(c, before + [m] + after) == GetEmails(c, before) + [ParseWith(c)(m).value] + GetEmails(c, after)
  {
    ParsedMessageKept(ParseWith(c), before, m, after);
  }
}

=== FILE: relevance.dfy ===
/**
  `check_email_relevance`: the email text is cut into sentences, every
  (sentence, keyword) pair gets a similarity score, and a keyword matches
  when its best score is strictly above the threshold; the sentence that
  first reaches that best score is its evidence. The embedding model and
  cosine similarity are an opaque scoring function.
 */
module Relevance {
  import opened Wrappers
  import opened Text

  /** The default `similarity_threshold`. */
  const DefaultThreshold: real := 0.7

  /** The keywords the monitor's `main` looks for. */
  const MonitorKeywords: seq<string> := ["job opportunity", "career opening", "interview request"]

  /** The text that is cut into sentences: `f"{subject}. {body}"`. */
  function EmailText(subject: string, body: string): (t: string)
    ensures |t| == |subject| + 2 + |body|
    ensures t[..|subject|] == subject && t[|subject|] == '.' && t[|subject| + 1] == ' '
    ensures t[|subject| + 2..] == body
  {
    subject + ". " + body
  }

  /** A corpus sentence: non-empty, no `.`, no surrounding whitespace. */
  predicate IsSentence(s: string) {
    s != "" && '.' !in s && !IsSpace(s[0]) && !IsSpace(s[|s| - 1])
  }

  lemma StripKeepsOut(s: string, ch: char)
    requires ch !in s
    ensures ch !in Strip(s)
  {
    var r := Strip(s);
    var i := LeadingSpace(s);
    forall k | 0 <= k < |r|
      ensures r[k] != ch
    {
      assert r[k] == s[i + k];
    }
  }

  /** `[p.strip() for p in pieces if p.strip()]`. */
  function Clean(pieces: seq<string>): (r: seq<string>)
    requires forall i :: 0 <= i < |pieces| ==> '.' !in pieces[i]
    ensures |r| <= |pieces|
    ensures forall i :: 0 <= i < |r| ==> IsSentence(r[i])
  {
    if |pieces| == 0 then []
    else
      var t := Strip(pieces[0]);
      StripKeepsOut(pieces[0], '.');
      (if t == "" then [] else [t]) + Clean(pieces[1..])
  }

  /** The sentence corpus of a text, in text order. */
  function Sentences(text: string): (r: seq<string>)
    ensures forall i :: 0 <= i < |r| ==> IsSentence(r[i])
  {
    Clean(Split(text, '.'))
  }

  lemma {:induction false} CleanAppend(a: seq<string>, b: seq<string>)
    requires forall i :: 0 <= i < |a| ==> '.' !in a[i]
    requires forall i :: 0 <= i < |b| ==> '.' !in b[i]
    ensures Clean(a + b) == Clean(a) + Clean(b)
  {
    if |a| == 0 {
      assert a + b == b;
    } else {
      assert (a + b)[0] == a[0];
      assert (a + b)[1..] == a[1..] + b;
      CleanAppend(a[1..], b);
    }
  }

  /** The sentences before a `.` come first and those after it follow, in order. */
  lemma SentencesAppend(a: string, b: string)
    ensures Sentences(a + "." + b) == Sentences(a) + Sentences(b)
  {
    SplitAppend(a, '.', b);
    CleanAppend(Split(a, '.'), Split(b, '.'));
  }

  /** The subject's sentences precede the body's. */
  lemma SubjectSentencesFirst(subject: string, body: string)
    ensures Sentences(EmailText(subject, body)) == Sentences(subject) + Sentences(" " + body)
  {
    EmailTextSeparates(subject, body);
    SentencesAppend(subject, " " + body);
  }

  /** The joined text is the subject, a `.`, and the body after one space. */
  lemma EmailTextSeparates(subject: string, body: string)
    ensures EmailText(subject, body) == subject + "." + (" " + body)
  {
    assert ". " + body == "." + (" " + body);
  }

  /** A text without `.` is one sentence, stripped, unless it is blank. */
  lemma SentencesOfPiece(s: string)
    requires '.' !in s
    ensures Sentences(s) == if Strip(s) == "" then [] else [Strip(s)]
  {
    SplitWithoutSeparator(s, '.');
    assert [s][1..] == [];
  }

  /** `similarities[s][k]`: one row per sentence, one column per keyword. */
  type Matrix = seq<seq<real>>

  predicate Shaped(m: Matrix, rows: nat, cols: nat) {
    |m| == rows && forall s :: 0 <= s < |m| ==> |m[s]| == cols
  }

  predicate HasColumn(m: Matrix, k: int) {
    |m| > 0 && 0 <= k && forall s :: 0 <= s < |m| ==> k < |m[s]|
  }

  /** `np.max(similarities, axis=0)[k]`. */
  function ColumnMax(m: Matrix, k: int): (v: real)
    requires HasColumn(m, k)
    ensures forall s :: 0 <= s < |m| ==> m[s][k] <= v
  {
    if |m| == 1 then m[0][k]
    else
      var rest := ColumnMax(m[1..], k);
      assert forall s :: 1 <= s < |m| ==> m[1..][s - 1] == m[s];
      if m[0][k] >= rest then m[0][k] else rest
  }

  /** The column maximum is reached by some row. */
  lemma {:induction false} ColumnMaxAttained(m: Matrix, k: int) returns (s: nat)
    requires HasColumn(m, k)
    ensures s < |m| && m[s][k] == ColumnMax(m, k)
  {
    if |m| == 1 {
      s := 0;
    } else {
      var t := ColumnMaxAttained(m[1..], k);
      s := if m[0][k] >= ColumnMax(m[1..], k) then 0 else t + 1;
    }
  }

  /** `np.argmax(similarities[:, k])`: the first row reaching the column's maximum. */
  function ArgMax(m: Matrix, k: int): (s: nat)
    requires HasColumn(m, k)
    ensures s < |m|
    ensures forall t :: 0 <= t < |m| ==> m[t][k] <= m[s][k]
    ensures forall t :: 0 <= t < s ==> m[t][k] < m[s][k]
  {
    if |m| == 1 then 0
    else
      var j := 1 + ArgMax(m[1..], k);
      assert forall t :: 1 <= t < |m| ==> m[1..][t - 1] == m[t];
      if m[j][k] > m[0][k] then j else 0
  }

  /** `np.where(max_similarities > threshold)[0]`, restricted to columns `from..cols`. */
  function MatchedColumns(m: Matrix, thr: real, from: nat, cols: nat): (r: seq<nat>)
    requires from <= cols
    requires forall k :: 0 <= k < cols ==> HasColumn(m, k)
    decreases cols - from
    ensures forall i :: 0 <= i < |r| ==> from <= r[i] < cols && ColumnMax(m, r[i]) > thr
    ensures forall i, j :: 0 <= i < j < |r| ==> r[i] < r[j]
    ensures forall k :: from <= k < cols && ColumnMax(m, k) > thr ==> k in r
  {
    if from == cols then []
    else (if ColumnMax(m, from) > thr then [from] else []) + MatchedColumns(m, thr, from + 1, cols)
  }

  /** The result triple `(is_relevant, matched_keywords, relevant_sentences)`. */
  datatype Verdict = Verdict(relevant: bool, keywords: seq<string>, sentences: seq<string>)

  /** The selection made from the similarity matrix once it exists. */
  function Select(m: Matrix, sentences: seq<string>, keywords: seq<string>, thr: real): (v: Verdict)
    requires |sentences| > 0 && Shaped(m, |sentences|, |keywords|)
    ensures |v.keywords| == |v.sentences|
    ensures v.relevant <==> |v.keywords| > 0
    ensures var cols := MatchedColumns(m, thr, 0, |keywords|);
      |v.keywords| == |cols| &&
      forall i :: 0 <= i < |cols| ==>
        v.keywords[i] == keywords[cols[i]] && v.sentences[i] == sentences[ArgMax(m, cols[i])]
  {
    var cols := MatchedColumns(m, thr, 0, |keywords|);
    if |cols| > 0 then
      Verdict(true,
        seq(|cols|, i requires 0 <= i < |cols| => keywords[cols[i]]),
        seq(|cols|, i requires 0 <= i < |cols| => sentences[ArgMax(m, cols[i])]))
    else
      Verdict(false, [], [])
  }

  /** The scores the embedding model and cosine similarity give every pair. */
  function SimilarityMatrix(sim: (string, string) -> real, sentences: seq<string>, keywords: seq<string>): (m: Matrix)
    ensures Shaped(m, |sentences|, |keywords|)
    ensures forall s, k :: 0 <= s < |sentences| && 0 <= k < |keywords| ==> m[s][k] == sim(sentences[s], keywords[k])
  {
    seq(|sentences|, s requires 0 <= s < |sentences| =>
      seq(|keywords|, k requires 0 <= k < |keywords| => sim(sentences[s], keywords[k])))
  }

  /** sklearn rejects an empty batch of sentences or of keywords. */
  datatype MatchError = NoSentences | NoKeywords

  /** `check_email_relevance(subject, body, keywords, threshold)`. */
  function CheckRelevance(sim: (string, string) -> real, subject: string, body: string,
                          keywords: seq<string>, thr: real): (r: Result<Verdict, MatchError>)
    ensures r.Failure? <==> Sentences(EmailText(subject, body)) == [] || keywords == []
    ensures r.Success? ==> var ss := Sentences(EmailText(subject, body));
      r.value == Select(SimilarityMatrix(sim, ss, keywords), ss, keywords, thr)
  {
    var ss := Sentences(EmailText(subject, body));
    if |ss| == 0 then Failure(NoSentences)
    else if |keywords| == 0 then Failure(NoKeywords)
    else Success(Select(SimilarityMatrix(sim, ss, keywords), ss, keywords, thr))
  }

  /** The email is relevant exactly when some keyword's best score is above the threshold. */
  lemma RelevantIffSomeKeywordAbove(m: Matrix, sentences: seq<string>, keywords: seq<string>, thr: real)
    requires |sentences| > 0 && Shaped(m, |sentences|, |keywords|)
    ensures Select(m, sentences, keywords, thr).relevant <==> exists k :: 0 <= k < |keywords| && ColumnMax(m, k) > thr
    ensures !Select(m, sentences, keywords, thr).relevant ==> Select(m, sentences, keywords, thr) == Verdict(false, [], [])
  {
    var v := Select(m, sentences, keywords, thr);
    var cols := MatchedColumns(m, thr, 0, |keywords|);
    if |cols| > 0 {
      assert 0 <= cols[0] < |keywords| && ColumnMax(m, cols[0]) > thr;
    } else {
      assert forall k :: 0 <= k < |keywords| ==> ColumnMax(m, k) <= thr;
      assert |v.keywords| == 0 && |v.sentences| == 0;
      assert v.keywords == [] && v.sentences == [];
    }
  }

  /**
    End to end: when the check answers, the email is relevant exactly when
    some sentence of it scores above the threshold against some keyword.
   */
  lemma RelevantIffSomePairAbove(sim: (string, string) -> real, subject: string, body: string,
                                 keywords: seq<string>, thr: real)
    ensures var r := CheckRelevance(sim, subject, body, keywords, thr);
      var ss := Sentences(EmailText(subject, body));
      r.Success? ==> (r.value.relevant <==>
        exists s, k :: 0 <= s < |ss| && 0 <= k < |keywords| && sim(ss[s], keywords[k]) > thr)
  {
    var r := CheckRelevance(sim, subject, body, keywords, thr);
    var ss := Sentences(EmailText(subject, body));
    if r.Success? {
      var m := SimilarityMatrix(sim, ss, keywords);
      RelevantIffSomeKeywordAbove(m, ss, keywords, thr);
      if r.value.relevant {
        var k :| 0 <= k < |keywords| && ColumnMax(m, k) > thr;
        var s := ColumnMaxAttained(m, k);
        assert sim(ss[s], keywords[k]) > thr;
      }
      if exists s, k :: 0 <= s < |ss| && 0 <= k < |keywords| && sim(ss[s], keywords[k]) > thr {
        var s, k :| 0 <= s < |ss| && 0 <= k < |keywords| && sim(ss[s], keywords[k]) > thr;
        assert m[s][k] <= ColumnMax(m, k);
      }
    }
  }

  /**
    For distinct keywords, a keyword is reported exactly when its best score
    is strictly above the threshold; a score equal to the threshold does not match.
   */
  lemma MatchedIffAboveThreshold(m: Matrix, sentences: seq<string>, keywords: seq<string>, thr: real, k: nat)
    requires |sentences| > 0 && Shaped(m, |sentences|, |keywords|)
    requires forall i, j :: 0 <= i < j < |keywords| ==> keywords[i] != keywords[j]
    requires k < |keywords|
    ensures keywords[k] in Select(m, sentences, keywords, thr).keywords <==> ColumnMax(m, k) > thr
  {
    var v := Select(m, sentences, keywords, thr);
    var cols := MatchedColumns(m, thr, 0, |keywords|);
    if ColumnMax(m, k) > thr {
      assert k in cols;
      var i :| 0 <= i < |cols| && cols[i] == k;
      assert v.keywords[i] == keywords[k];
    }
    if keywords[k] in v.keywords {
      var i :| 0 <= i < |v.keywords| && v.keywords[i] == keywords[k];
      assert keywords[cols[i]] == keywords[k];
      assert cols[i] == k;
    }
  }

  /** Reported keywords keep their input order, and every one of them is above the threshold. */
  lemma MatchedKeywordsInOrder(m: Matrix, sentences: seq<string>, keywords: seq<string>, thr: real, i: nat, j: nat)
    requires |sentences| > 0 && Shaped(m, |sentences|, |keywords|)
    requires i < j < |Select(m, sentences, keywords, thr).keywords|
    ensures var v := Select(m, sentences, keywords, thr);
      exists ki, kj :: 0 <= ki < kj < |keywords| &&
        v.keywords[i] == keywords[ki] && v.keywords[j] == keywords[kj] &&
        ColumnMax(m, ki) > thr && ColumnMax(m, kj) > thr
  {
    var cols := MatchedColumns(m, thr, 0, |keywords|);
    assert 0 <= cols[i] < cols[j] < |keywords|;
  }

  /** The evidence for each reported keyword is the first sentence reaching that keyword's best score. */
  lemma EvidenceIsFirstBestSentence(m: Matrix, sentences: seq<string>, keywords: seq<string>, thr: real, i: nat)
    requires |sentences| > 0 && Shaped(m, |sentences|, |keywords|)
    requires i < |Select(m, sentences, keywords, thr).keywords|
    ensures var v := Select(m, sentences, keywords, thr);
      exists k, s :: 0 <= k < |keywords| && 0 <= s < |sentences| &&
        v.keywords[i] == keywords[k] && v.sentences[i] == sentences[s] &&
        ColumnMax(m, k) > thr && m[s][k] == ColumnMax(m, k) && forall t :: 0 <= t < s ==> m[t][k] < m[s][k]
  {
    var cols := MatchedColumns(m, thr, 0, |keywords|);
    var k := cols[i];
    var s := ArgMax(m, k);
    var w := ColumnMaxAttained(m, k);
    assert m[s][k] == ColumnMax(m, k);
  }

  /** Blank subject and body leave no sentence, so the matcher raises instead of answering "no match". */
  lemma BlankEmailRaises(sim: (string, string) -> real, keywords: seq<string>, thr: real)
    ensures CheckRelevance(sim, "", "", keywords, thr) == Failure(NoSentences)
  {
    SubjectSentencesFirst("", "");
    SentencesOfPiece("");
    SentencesOfPiece(" ");
    assert Strip(" ") == "";
  }

  /** A sentence on its own, with or without a space before it, is the whole corpus. */
  lemma SentenceAlone(s: string)
    requires IsSentence(s)
    ensures Sentences(s) == [s] && Sentences(" " + s) == [s]
  {
    assert LeadingSpace(s) == 0 && TrailingSpace(s) == 0;
    assert Strip(s) == s;
    SentencesOfPiece(s);
    var t := " " + s;
    assert t[1..] == s;
    assert LeadingSpace(t) == 1;
    assert Strip(t) == s;
    assert '.' !in t;
    SentencesOfPiece(t);
  }

  lemma NoTextNoSentence()
    ensures Sentences("") == []
  {
    SentencesOfPiece("");
  }

  /** A one-sentence subject and a one-sentence body ending in `.` give exactly those two sentences. */
  lemma TwoSentenceEmail(subject: string, sentence: string)
    requires IsSentence(subject) && IsSentence(sentence)
    ensures Sentences(EmailText(subject, sentence + ".")) == [subject, sentence]
  {
    SentenceAlone(subject);
    FinalSentence(sentence);
    SubjectSentencesFirst(subject, sentence + ".");
  }

  /** A body that is one sentence and its full stop is that sentence. */
  lemma FinalSentence(sentence: string)
    requires IsSentence(sentence)
    ensures Sentences(" " + (sentence + ".")) == [sentence]
  {
    var t := " " + sentence;
    FullStopLast(sentence);
    SentencesAppend(t, "");
    SentenceAlone(sentence);
    NoTextNoSentence();
    calc {
      Sentences(" " + (sentence + "."));
      Sentences(t + "." + "");
      Sentences(t) + Sentences("");
      [sentence];
    }
  }

  /** A full stop at the end splits the text into what precedes it and nothing. */
  lemma FullStopLast(sentence: string)
    ensures " " + (sentence + ".") == (" " + sentence) + "." + ""
  {
  }

  /**
    The worked case of the interview request: the subject "Interview request
    for role" and the body "We would like to schedule your interview." are two
    sentences; when the second scores above the threshold and above the first
    for the one keyword, that keyword matches with the second as evidence.
   */
  lemma SecondSentenceIsEvidence(sim: (string, string) -> real, subject: string, sentence: string, keyword: string, thr: real)
    requires IsSentence(subject) && IsSentence(sentence)
    requires sim(sentence, keyword) > thr && sim(subject, keyword) < sim(sentence, keyword)
    ensures CheckRelevance(sim, subject, sentence + ".", [keyword], thr)
         == Success(Verdict(true, [keyword], [sentence]))
  {
    TwoSentenceEmail(subject, sentence);
    var ss := [subject, sentence];
    var m := SimilarityMatrix(sim, ss, [keyword]);
    assert m[1][0] > m[0][0] && m[1][0] > thr;
    assert ColumnMax(m, 0) == m[1][0] by {
      assert m[1..] == [m[1]];
    }
    assert MatchedColumns(m, thr, 0, 1) == [0];
    assert ArgMax(m, 0) == 1 by {
      assert m[1..] == [m[1]];
    }
    var v := Select(m, ss, [keyword], thr);
    assert v.keywords == [keyword] && v.sentences == [sentence];
    assert CheckRelevance(sim, subject, sentence + ".", [keyword], thr) == Success(v);
  }

  /** The interview request worked through with the monitor's default threshold. */
  lemma InterviewRequestExample(sim: (string, string) -> real)
    requires sim("We would like to schedule your interview", "interview request") > DefaultThreshold
    requires sim("Interview request for role", "interview request") <
             sim("We would like to schedule your interview", "interview request")
    ensures CheckRelevance(sim, "Interview request for role", "We would like to schedule your interview.",
                           ["interview request"], DefaultThreshold)
         == Success(Verdict(true, ["interview request"], ["We would like to schedule your interview"]))
  {
    var subject := "Interview request for role";
    var sentence := "We would like to schedule your interview";
    assert IsSentence(subject);
    assert IsSentence(sentence);
    assert sentence + "." == "We would like to schedule your interview.";
    SecondSentenceIsEvidence(sim, subject, sentence, "interview request", DefaultThreshold);
  }
}

=== FILE: text.dfy ===
/**
  The three Python `str` operations the classifiers rely on: `strip()`,
  `split(sep)` and the substring test `sub in s`.
 */
module Text {

  /** Python's `str.isspace` for one character (Unicode whitespace). */
  predicate IsSpace(ch: char) {
    || ('\t' <= ch <= '\r') || ('\U{1c}' <= ch <= '\U{1f}') || ch == ' '
    || ch == '\U{85}' || ch == '\U{a0}' || ch == '\U{1680}'
    || ('\U{2000}' <= ch <= '\U{200a}') || ch == '\U{2028}' || ch == '\U{2029}'
    || ch == '\U{202f}' || ch == '\U{205f}' || ch == '\U{3000}'
  }

  /** Number of whitespace characters at the start of `s`. */
  function LeadingSpace(s: string): (n: nat)
    ensures n <= |s|
    ensures forall k :: 0 <= k < n ==> IsSpace(s[k])
    ensures n < |s| ==> !IsSpace(s[n])
  {
    if |s| == 0 || !IsSpace(s[0]) then 0 else 1 + LeadingSpace(s[1..])
  }

  /** Number of whitespace characters at the end of `s`. */
  function TrailingSpace(s: string): (n: nat)
    ensures n <= |s|
    ensures forall k :: |s| - n <= k < |s| ==> IsSpace(s[k])
    ensures n < |s| ==> !IsSpace(s[|s| - 1 - n])
  {
    if |s| == 0 || !IsSpace(s[|s| - 1]) then 0 else 1 + TrailingSpace(s[..|s| - 1])
  }

  /**
    Python's `s.strip()`: the result is the part of `s` after its leading
    whitespace, with only whitespace cut from its end, and it neither starts
    nor ends with whitespace.
   */
  function Strip(s: string): (r: string)
    ensures r == "" <==> forall k :: 0 <= k < |s| ==> IsSpace(s[k])
    ensures r != "" ==> !IsSpace(r[0]) && !IsSpace(r[|r| - 1])
    ensures LeadingSpace(s) + |r| <= |s| && r == s[LeadingSpace(s)..LeadingSpace(s) + |r|]
    ensures forall k :: LeadingSpace(s) + |r| <= k < |s| ==> IsSpace(s[k])
  {
    var t := s[LeadingSpace(s)..];
    t[..|t| - TrailingSpace(t)]
  }

  /** The number of characters in all the pieces together. */
  function TotalLength(pieces: seq<string>): nat {
    if |pieces| == 0 then 0 else |pieces[0]| + TotalLength(pieces[1..])
  }

  /**
    Python's `sep.join(pieces)`: the pieces in order, the first one at the
    front, with one separator between each two of them.
   */
  function Join(pieces: seq<string>, sep: string): (r: string)
    ensures |pieces| == 0 ==> r == ""
  {
    if |pieces| == 0 then ""
    else if |pieces| == 1 then pieces[0]
    else pieces[0] + sep + Join(pieces[1..], sep)
  }

  /** The joined text holds every character of every piece and one separator between each two pieces. */
  lemma {:induction false} JoinLength(pieces: seq<string>, sep: string)
    requires |pieces| > 0
    ensures |Join(pieces, sep)| == TotalLength(pieces) + (|pieces| - 1) * |sep|
  {
    if |pieces| > 1 {
      JoinLength(pieces[1..], sep);
      assert (|pieces| - 1) * |sep| == (|pieces| - 2) * |sep| + |sep|;
    }
  }

  /**
    Python's `s.split(sep)` for a one-character separator: the pieces between
    separators, empty ones included; joining them back gives `s`.
   */
  function Split(s: string, sep: char): (r: seq<string>)
    ensures |r| >= 1
    ensures forall i :: 0 <= i < |r| ==> sep !in r[i]
    ensures Join(r, [sep]) == s
  {
    if |s| == 0 then [""]
    else
      var rest := Split(s[1..], sep);
      if s[0] == sep then
        [""] + rest
      else
        var r := [[s[0]] + rest[0]] + rest[1..];
        assert r[1..] == rest[1..];
        assert s == [s[0]] + s[1..];
        r
  }

  lemma {:induction false} SplitWithoutSeparator(s: string, sep: char)
    requires sep !in s
    ensures Split(s, sep) == [s]
  {
    if |s| > 0 {
      SplitWithoutSeparator(s[1..], sep);
      assert [s[0]] + s[1..] == s;
    }
  }

  /** Splitting at a separator splits the two sides independently. */
  lemma {:induction false} SplitAppend(a: string, sep: char, b: string)
    ensures Split(a + [sep] + b, sep) == Split(a, sep) + Split(b, sep)
  {
    var s := a + [sep] + b;
    if |a| == 0 {
      assert s[1..] == b;
    } else {
      assert s[1..] == a[1..] + [sep] + b;
      SplitAppend(a[1..], sep, b);
    }
  }

  /** Split inverts Join on separator-free pieces. */
  lemma {:induction false} SplitJoin(pieces: seq<string>, sep: char)
    requires |pieces| >= 1
    requires forall i :: 0 <= i < |pieces| ==> sep !in pieces[i]
    ensures Split(Join(pieces, [sep]), sep) == pieces
  {
    SplitWithoutSeparator(pieces[0], sep);
    if |pieces| > 1 {
      SplitJoin(pieces[1..], sep);
      SplitAppend(pieces[0], sep, Join(pieces[1..], [sep]));
      assert [pieces[0]] + pieces[1..] == pieces;
    }
  }

  /** `sub` occurs in `s` starting at index `i`. */
  predicate OccursAt(s: string, sub: string, i: int) {
    0 <= i <= |s| - |sub| && s[i..i + |sub|] == sub
  }

  /** Python's `sub in s` for strings. */
  predicate Contains(s: string, sub: string)
    ensures sub == [] ==> Contains(s, sub)
    ensures sub == s ==> Contains(s, sub)
    ensures |sub| > |s| ==> !Contains(s, sub)
  {
    assert OccursAt(s, [], 0);
    assert sub == s ==> OccursAt(s, sub, 0);
    exists i | 0 <= i <= |s| - |sub| :: OccursAt(s, sub, i)
  }

  /** A substring of `s` stays a substring when text is added on either side. */
  lemma ContainsExtended(s: string, sub: string, before: string, after: string)
    requires Contains(s, sub)
    ensures Contains(before + s + after, sub)
  {
    var i :| 0 <= i <= |s| - |sub| && OccursAt(s, sub, i);
    var t := before + s + after;
    assert t[|before| + i..|before| + i + |sub|] == sub;
    assert OccursAt(t, sub, |before| + i);
  }
}

=== FILE: wrappers.dfy ===
/** Failure-compatible wrappers shared by every module of the model. */
module Wrappers {

  /** An optional value: Python's `None` or a present value. */
  datatype Option<+T> = None | Some(value: T)

  /** Either a value or the exception a Python call would have raised. */
  datatype Result<+R, +E> = Success(value: R) | Failure(error: E) {

    predicate IsFailure() {
      Failure?
    }

    function PropagateFailure<U>(): Result<U, E>
      requires Failure?
    {
      Failure(error)
    }

    function Extract(): R
      requires Success?
    {
      value
    }
  }
}
